=== FILE: README.md ===
# Recipe catalog: client form and server table, modelled in Dafny

The system is a small menu-ordering app. A browser client edits one form at a time and keeps a list of recipe cards. An Express server stores the recipes in one SQLite table. Each recipe has a name from a fixed menu, a unit price, a quantity ("servings") and an id assigned by the database. This project models the two places where the behaviour has real rules.

- **The server table and its five routes** (`catalog.dfy`, `catalog_properties.dfy`). The `recipes` table is a map from id to row plus the AUTOINCREMENT counter. Each route runs one SQL statement, so each is a pure function from the table to a new table and a response. The response is either a 200 with a JSON body or a 500 `"DB error"`. The storage layer's success or failure is a parameter.
- **The client** (`pricing.dfy`, `html.dfy`, `listview.dfy`, `form.dfy`, `feedback.dfy`). This covers:
  - the menu price table;
  - the derived unit-price and total fields;
  - the price tier;
  - the HTML escaper;
  - the list renderer;
  - the form state machine, which is `Drafting | Editing(id)`.

  Every request the client sends becomes a parameter of the transition that handles its reply. That parameter is an `Outcome`: `Succeeded(body)` or `Failed`.
- **Client against server** (`sync.dfy`). This part turns server responses into client outcomes. Its lemmas follow one user action through both sides. Examples: a create followed by a refresh, editing a Tacos order, and deleting the record being edited.

Modelling choices:

- Numbers are unbounded integers, and a request carries each number already converted. The client always sends numbers. For a missing or non-numeric price or quantity the server's `Number(...)` gives `NaN`, which SQLite binds as `NULL`, so the insert or update fails its `NOT NULL` column with a 500. The model cannot express `NaN` and treats such a field as 0; "## Left out" names the routes affected. For an id, `NaN` and 0 behave alike: ids start at 1, so an id of 0 matches no row, just as `WHERE id = NaN` matches nothing.
- AUTOINCREMENT hands out one more than the largest id ever used, and it never reuses an id. SQLite's largest rowid is 2^63 - 1. Once that id has been used, an insert fails, and the model returns a 500 in that case.
- `ORDER BY id DESC` is modelled as a backwards scan over the ids below the counter.
- A missing `name` in a request body violates the `NOT NULL` column. For POST this always gives a 500. For PUT it fails only when a row matches. With no matching row, nothing is written, so no constraint is violated.

Three behaviours of the code are worth spelling out:

- **Quantity check.** A submit rejects only a quantity of 0 (`!servings`, client/script.js:324). A negative quantity is sent.
- **Server validation.** The server checks nothing beyond the `NOT NULL` columns of the table.
- **Missing ids.** An update or a delete of an absent id changes nothing and still answers with its success message (server/server.js:120 and 141).

On a select, the client first writes the menu price of the record's name into the unit-price field, falling back to the record's stored price for a name off the menu (client/script.js:290). The very next call, `updateCalculatedFields` at line 293, recomputes the field from the menu table alone, which blanks it for an off-menu name. So the stored price never remains on screen. `FormController.SelectShowsTablePrice` states this.

## Model

| member | source | states |
|---|---|---|
| Pricing.PriceForMenu | client/script.js:164-166 | A name in the menu table gets its table price, which is positive. Every other name gets 0, and 0 means "not on the menu". |
| Pricing.MenuPricesArePositive | client/script.js:6-27 | Every one of the twenty menu prices is positive. |
| Pricing.EmptyNameHasNoPrice | client/script.js:164-166 | The empty selection is not on the menu and maps to 0. |
| Pricing.CalculatedFields | client/script.js:169-176 | The unit-price field is blank exactly for names off the menu. The total is shown exactly when both the price and the quantity are nonzero, and then it equals price × quantity. |
| Pricing.TierFromTotal | client/script.js:179-184 | The bands are: unknown for totals ≤ 0, ok for (0, 500], cheap for (500, 1500], expensive above 1500. Each band is stated in both directions. |
| Pricing.TierIsMonotone | client/script.js:179-184 | A larger total never falls into a lower band. |
| Pricing.TierBoundaries | client/script.js:179-184 | -5 and 0 are unknown, 500 is ok, 501 and 1500 are cheap, 1501 is expensive. |
| Html.ReplaceAll | client/script.js:355-359 | One `replaceAll` pass with a one-character pattern: when the replacement does not contain the character, no occurrence of it survives. |
| Html.EscapeHtml | client/script.js:353-360 | The escaper, whose body is the five source-ordered passes `Html.FivePasses`, equals escaping each character on its own. Its output contains no raw `<`, `>`, `"` or `'`, and decoding the five entities recovers the original string. |
| Html.EscapeHtmlIsPerCharacter | client/script.js:353-360 | The five `replaceAll` passes, run in source order, equal escaping each character on its own. Ampersands introduced by later passes are never escaped again. |
| Html.EscapeHtmlChar | client/script.js:353-360 | On one character, the passes produce exactly that character's entity, or the character itself. |
| Html.EscapeHtmlAppend | client/script.js:353-360 | Escaping a concatenation is the concatenation of the escaped parts. |
| Html.EscapeChar | client/script.js:355-359 | A character is copied unchanged exactly when it is none of `& < > " '`. An escaped character becomes an entity of the form `&…;`. |
| Html.EscapeEachIsInert | client/script.js:355-359 | Escaping each character on its own leaves no raw `<`, `>`, `"` or `'`. |
| Html.EscapeHtmlKeepsPlainText | client/script.js:353-360 | Text with none of the five special characters is returned unchanged. |
| Html.UnescapeEscapeEach | client/script.js:355-359 | Decoding the five entities of per-character escaped text recovers the original string, so escaping loses nothing. |
| ListView.ItemsOf | client/script.js:218 | An array body yields its items; any other body counts as no items. |
| ListView.CardOf | client/script.js:227-245 | A card carries the record's id, price and quantity, plus total = price × quantity and the tier of that total. Its title cannot inject markup and decodes back to the stored name. |
| ListView.RenderList | client/script.js:217-233 | A body that is not an array counts as no items. The empty-state view appears exactly when there are no items. Otherwise there is one card per item, in the order received. |
| ListView.FetchAndRender | client/script.js:205-214 | A failed fetch keeps the previous view and raises an error notice. A successful fetch replaces the whole view with a rendering of the fetched snapshot and shows no notice. |
| ListView.FetchAndRenderReplacesView | client/script.js:205-214 | After a successful fetch the list shown depends only on the fetched snapshot, not on the view it replaced. A failed fetch keeps the view, so a second failure changes nothing more. |
| FormController.ClearedIsConsistent | client/script.js:188-194 | The reset form is drafting, has blank derived fields and a hidden cancel button, and satisfies the form invariant. |
| FormController.Recalculate | client/script.js:169-176 | The unit-price and total fields become the values calculated from the name and quantity. Mode, name, quantity and cancel button are untouched. If the cancel button already matches the mode, the result is consistent. |
| FormController.ChooseName | client/script.js:106-108 | Choosing a name sets the name and recalculates both derived fields from the new name and the current quantity. Mode, quantity and cancel button are untouched, and a consistent form stays consistent. |
| FormController.EnterServings | client/script.js:110-111 | Typing a quantity sets it and recalculates both derived fields from the current name and the new quantity. Mode, name and cancel button are untouched, and a consistent form stays consistent. |
| FormController.UpdateTarget | client/script.js:329-334 | A submit updates exactly when the editing id is present and nonzero. Otherwise it creates. |
| FormController.Submittable | client/script.js:320-327 | The local check passes exactly for a name on the menu with a nonzero quantity. The empty-name test is subsumed by the price test, since the empty selection has no price. |
| FormController.SubmitRequest | client/script.js:319-334 | In edit mode the request is a PUT of `{id, name, price, servings}`. Otherwise it is a POST of `{name, price, servings}` with no id. The price is always the table price of the name, never the displayed value. |
| FormController.Submit | client/script.js:316-350 | An empty name, a zero quantity or an off-menu name sends nothing, leaves the form unchanged and shows the validation notice. A valid submit sends the request. On success the form returns to an empty draft, a created or updated notice is shown and the list is refreshed. On failure the form is unchanged and an error notice is shown. |
| FormController.SelectRecipe | client/script.js:282-299 | Always fetches the requested id. A fetched record puts the form in edit mode on that record's id, seeds the name and quantity, shows the cancel button and leaves the form consistent. A failure or a `null` body leaves the form unchanged and shows an error notice. |
| FormController.DeleteRecipe | client/script.js:302-313 | Always sends the delete. On success the list is refreshed, and the form is cleared only if it was editing that same id; otherwise it is untouched. On failure the form is unchanged and an error notice is shown. |
| FormController.Step | client/script.js:106-130 | The events are those wired at these lines plus the cards' edit and delete clicks (client/script.js:239 and 256-264, exposed at 363-364). Choosing a name or typing a quantity goes through `ChooseName` or `EnterServings` and sends nothing. Reset and cancel return the form to the empty draft of `resetForm` (client/script.js:188-194) with their own notice. An event sends a request exactly when it is a select, a delete, or a submit that passes the local check. Only a delete or a submit can refresh the list. No event breaks the form's invariant. |
| FormController.StepPreservesConsistent | client/script.js:106-130 | Every user event and every request outcome keeps the invariant: the cancel button is shown exactly in edit mode, and the derived fields match the name and quantity. |
| FormController.RunPreservesConsistent | client/script.js:98-130 | The invariant holds after any sequence of events that starts from a consistent form. |
| FormController.FailureLeavesFormUnchanged | client/script.js:282-350 | A failed select, a `null` record, a failed delete and a failed submit all leave the form exactly as it was. |
| FormController.SelectShowsTablePrice | client/script.js:288-293 | After a select, the unit-price field shows the menu price of the record's name, or blank for an off-menu name. The record's stored price never shows. |
| Catalog.EmptyStore | server/server.js:30-37 | The freshly created table has no rows and satisfies the table invariant. |
| Catalog.RowsBelow | server/server.js:43 | The backwards scan lists only stored rows, with their stored fields, in strictly descending id order. |
| Catalog.RowsBelowComplete | server/server.js:43 | The backwards scan lists every stored row in its range. |
| Catalog.HandleList | server/server.js:41-55 | GET /recipes leaves the table unchanged. On success it returns the rows in strictly descending id order. Every returned row is stored, and every stored row appears exactly once. A storage error gives a 500 "DB error". |
| Catalog.HandleGet | server/server.js:59-75 | GET /recipes/:id leaves the table unchanged. It returns the stored record exactly when the id is present, and `null` otherwise (not an error). A storage error gives a 500. |
| Catalog.HandleCreate | server/server.js:79-99 | POST succeeds exactly when storage is available, the name is present and ids remain. The new row is stored under the counter's id, the counter advances, and all other rows are unchanged. On failure the table is unchanged and the response is a 500. |
| Catalog.HandleUpdate | server/server.js:103-123 | PUT replaces name, price and quantity only on the row with the given id. The ids, the counter and all other rows are unchanged. An absent id changes nothing and still succeeds. A missing name fails only when a row matches. |
| Catalog.HandleDelete | server/server.js:127-143 | DELETE removes only the row with the given id and leaves the counter and all other rows unchanged. An absent id still succeeds. A storage error changes nothing and gives a 500. |
| Catalog.Serve | server/server.js:41-143 | The two reads never change the table. With a failing storage layer, every route leaves the table as it was and answers 500 "DB error". No route moves the id counter back. |
| CatalogProperties.ServePreservesValid | server/server.js:30-37 | Every route keeps ids positive and below the counter, and keeps the counter within the rowid range. |
| CatalogProperties.RunPreservesValid | server/server.js:30-37 | The table invariant holds after any sequence of requests. |
| CatalogProperties.CreateThenGet | server/server.js:84-86 | After a create, a get of the new id returns exactly the stored fields. That id was held by no row before. |
| CatalogProperties.CreateThenListHead | server/server.js:43 | After a create, the new record is the first item of the list. |
| CatalogProperties.DeleteIsIdempotent | server/server.js:132-141 | Deleting the same id twice gives the same table and response as deleting it once. |
| CatalogProperties.Run | server/server.js:31-32 | Over any sequence of requests, the AUTOINCREMENT counter never decreases. |
| CatalogProperties.CreatedIds | server/server.js:31-32 | The ids handed out by successful creates are strictly increasing. Each lies between the starting counter and the final counter. |
| CatalogProperties.IdsNeverReused | server/server.js:31-32 | No id handed out by a create equals an id present at the start, and no two creates share an id. Ids are therefore never reused after deletion. |
| Sync.Acknowledged | client/script.js:304-305 | A mutation counts as a success exactly when the status is ok. |
| Sync.FetchedRecord | client/script.js:284-286 | A single-record read succeeds exactly on an ok status with a record-or-null body, and it yields that body. |
| Sync.FetchedList | client/script.js:207-209 | A list read succeeds exactly on an ok status and yields the body. |
| Sync.SubmitDraftCreates | client/script.js:329-345 | Submitting a valid draft stores `(name, table price, quantity)` under a fresh id and clears the form. |
| Sync.SubmitEditUpdates | client/script.js:329-345 | Submitting an edit of an existing record replaces exactly that row and clears the form. |
| Sync.SubmitEditOfVanishedRecord | server/server.js:108-120 | If the edited record was deleted meanwhile, the update changes nothing. The client still reports success and clears the form. |
| Sync.SelectFromServer | client/script.js:282-298 | Selecting a stored id enters edit mode on that id, with the stored name and quantity. Selecting an absent id changes nothing and shows an error. |
| Sync.DeleteEditedRecord | client/script.js:302-308 | Deleting the record being edited removes it from the table and returns the form to drafting, with no explicit cancel. |
| Sync.StorageErrorChangesNothing | server/server.js:44-138 | A storage error in any of the five routes leaves the table unchanged. For every form, a failed delete or get leaves the form unchanged and a failed list leaves the rendered list unchanged. A submit that passes the local check and then fails to create or update also leaves the form unchanged. A submit that fails the local check sends nothing and leaves the form unchanged. |
| Sync.CreateThenRender | client/script.js:227-233 | After creating a draft and refreshing, the first card is the new record, with total = table price × quantity and the tier of that total. |
| Sync.TwoTacos | client/script.js:16 | Two Tacos are sent as `{Tacos, 119, 2}` and render with total 238 and tier ok. |
| Sync.TenSalmon | client/script.js:22 | Ten "Grillad lax" are sent with price 159 and render with total 1590 and tier expensive. |
| Sync.TacosDownToOne | client/script.js:288-345 | Selecting a stored Tacos×2 and changing the quantity to 1 sends `{id, Tacos, 119, 1}`. A later get shows quantity 1. |
| Sync.EmptyNameIsRejected | client/script.js:323-327 | A submit with no name chosen sends nothing, leaves the form as it was and shows the validation notice. |

## Left out

- DOM and presentation: element lookups, the card markup beyond each card's fields, the CSS colour per tier, and the Bootstrap modal with its focus handling and `setTimeout` auto-dismiss. A notice is modelled only as its text and severity.
- Express wiring: routing by path, body parsing, the permissive CORS headers and `server.listen`. Requests arrive already decoded as a `Request` value.
- The `error: String(err)` detail in a 500 body. The detail depends on SQLite's error text, which is outside this model.
- Networking and timing: overlapping requests and response races. Each request is modelled as a single outcome delivered to its handler.
- JavaScript number coercion: `NaN`, fractions and numeric strings. Prices and quantities are integers.
- Catalog.HandleCreate: a missing or non-numeric price or quantity is not modelled as the 500 the server gives. `Number(...)` yields `NaN`, which is stored as `NULL` and violates a `NOT NULL` column (server/server.js:34-35, 86). The model receives such a field as 0 and stores the row. The client never sends such a body.
- Catalog.HandleUpdate: likewise, when a row matches, a missing or non-numeric price or quantity gives a 500 in the server (server/server.js:110) but is stored as 0 in the model. With no matching row both answer with the success message.
- `getPriceForMenu` on names inherited from `Object.prototype`, such as `"constructor"`. The table is modelled as a plain map, and the form's select box only offers menu names.
- The select element's handling of a stored name that is not one of its options. index.html is not part of this model, so the form keeps the stored name as given.
- The defaults that `recipeForm.reset()` restores, and the cancel button's initial visibility. Both come from index.html, which is not part of this model. They are assumed to be an empty name, quantity 0 and a hidden button.
- `escapeHtml` on non-strings (its `String(str)` coercion). Record names are strings.
- `showFeedback`'s fallback text for an empty message. Every message the client passes is non-empty.
- FormController.SelectRecipe: a 200 body other than a record or `null` is treated as a failure. The single-record route never sends one (see Catalog.HandleGet).
- Catalog.HandleList: that every stored row appears is stated only for tables satisfying the table invariant. Every reachable table satisfies it (CatalogProperties.RunPreservesValid).

=== FILE: catalog.dfy ===
/** The server: the `recipes` table and the five route handlers that each run
    one SQL statement against it. */
module Catalog {
  import opened Wrappers

  /** SQLite's largest rowid. An AUTOINCREMENT table that has used it refuses
      further inserts. */
  const MaxRowId: int := 0x7FFF_FFFF_FFFF_FFFF

  /** Response messages. */
  const DbError: string := "DB error"
  const CreatedMessage: string := "Maträtten skapades"
  const UpdatedMessage: string := "Maträtten uppdaterades"
  const DeletedMessage: string := "Maträtten borttagen"

  /** The non-key columns of one row. */
  datatype Row = Row(name: string, price: int, servings: int)

  /** A row as `SELECT *` returns it, key included. */
  datatype Record = Record(id: int, name: string, price: int, servings: int)

  /** The table: its rows by id, and the next id AUTOINCREMENT will hand out
      (one more than the largest id ever used, kept in `sqlite_sequence`). */
  datatype Store = Store(rows: map<int, Row>, nextId: int)

  /** Whether the storage layer executes the statement or reports an error
      (a locked or unreadable database file, for instance). */
  datatype Storage = Available | Failing

  /** The JSON bodies a handler sends with status 200. */
  datatype Json =
    | RecordList(items: seq<Record>)
    | MaybeRecord(item: Option<Record>)
    | Message(text: string)

  /** The HTTP outcome of a handler: 200 with a body, or 500 with a message. */
  datatype Response = Ok(body: Json) | ServerError(message: string)

  /** The five routes with their decoded parameters. Body fields that are
      absent are `None` for the name; numbers that do not parse read as 0. */
  datatype Request =
    | ListAll
    | GetOne(id: int)
    | Create(name: Option<string>, price: int, servings: int)
    | Update(id: int, name: Option<string>, price: int, servings: int)
    | Remove(id: int)

  datatype Reply = Reply(store: Store, response: Response)

  /** The table invariant: ids are positive and below the counter, and the
      counter never passes the largest rowid plus one. */
  ghost predicate Valid(s: Store)
  {
    && 1 <= s.nextId <= MaxRowId + 1
    && forall id :: id in s.rows ==> 1 <= id < s.nextId
  }

  /** The freshly created table. */
  function EmptyStore(): (s: Store)
    ensures Valid(s) && s.rows == map[]
  {
    Store(map[], 1)
  }

  function RecordOf(id: int, row: Row): (r: Record)
    ensures r.id == id && Row(r.name, r.price, r.servings) == row
  {
    Record(id, row.name, row.price, row.servings)
  }

  /** Does record `r` agree with the stored row under its id? */
  predicate Stored(rows: map<int, Row>, r: Record)
  {
    r.id in rows && rows[r.id] == Row(r.name, r.price, r.servings)
  }

  predicate StrictlyDescending(rs: seq<Record>)
  {
    forall i, j :: 0 <= i < j < |rs| ==> rs[i].id > rs[j].id
  }

  /** The rows with ids in [1, k), read backwards along the rowid order as
      `ORDER BY id DESC` does. */
  function RowsBelow(rows: map<int, Row>, k: int): (rs: seq<Record>)
    ensures forall i :: 0 <= i < |rs| ==> Stored(rows, rs[i]) && 1 <= rs[i].id < k
    ensures StrictlyDescending(rs)
    decreases k
  {
    if k <= 1 then []
    else if k - 1 in rows then [RecordOf(k - 1, rows[k - 1])] + RowsBelow(rows, k - 1)
    else RowsBelow(rows, k - 1)
  }

  /** Is there a record with this id in the list? */
  predicate Listed(rs: seq<Record>, id: int)
  {
    exists i :: 0 <= i < |rs| && rs[i].id == id
  }

  /** The backwards scan misses no row in its range: `i` is where it lists
      the row. */
  lemma {:induction false} RowsBelowComplete(rows: map<int, Row>, k: int, id: int) returns (i: nat)
    requires id in rows && 1 <= id < k
    ensures i < |RowsBelow(rows, k)| && RowsBelow(rows, k)[i].id == id
    decreases k
  {
    var rest := RowsBelow(rows, k - 1);
    if id == k - 1 {
      i := 0;
    } else {
      var j := RowsBelowComplete(rows, k - 1, id);
      if k - 1 in rows {
        assert RowsBelow(rows, k) == [RecordOf(k - 1, rows[k - 1])] + rest;
        i := j + 1;
      } else {
        i := j;
      }
    }
  }

  /** GET /recipes: every row, newest id first. */
  function HandleList(s: Store, io: Storage): (r: Reply)
    ensures r.store == s
    ensures io.Failing? ==> r.response == ServerError(DbError)
    ensures io.Available? ==> r.response.Ok? && r.response.body.RecordList?
    ensures r.response.Ok? ==>
      var items := r.response.body.items;
      && StrictlyDescending(items)
      && (forall i :: 0 <= i < |items| ==> Stored(s.rows, items[i]))
      && (Valid(s) ==> forall id :: id in s.rows ==> Listed(items, id))
  {
    if io.Failing? then Reply(s, ServerError(DbError))
    else
      var items := RowsBelow(s.rows, s.nextId);
      assert Valid(s) ==> forall id :: id in s.rows ==> Listed(items, id) by {
        if Valid(s) {
          forall id | id in s.rows
            ensures Listed(items, id)
          {
            var i := RowsBelowComplete(s.rows, s.nextId, id);
            assert items[i].id == id;
          }
        }
      }
      Reply(s, Ok(RecordList(items)))
  }

  /** GET /recipes/:id: the row, or `null` when no row has that id. */
  function HandleGet(s: Store, io: Storage, id: int): (r: Reply)
    ensures r.store == s
    ensures io.Failing? ==> r.response == ServerError(DbError)
    ensures io.Available? ==> r.response.Ok? && r.response.body.MaybeRecord?
    ensures r.response.Ok? ==>
      var item := r.response.body.item;
      && (item.Some? <==> id in s.rows)
      && (item.Some? ==> item.value.id == id && Stored(s.rows, item.value))
  {
    if io.Failing? then Reply(s, ServerError(DbError))
    else if id in s.rows then Reply(s, Ok(MaybeRecord(Some(RecordOf(id, s.rows[id])))))
    else Reply(s, Ok(MaybeRecord(None)))
  }

  /** POST /recipes: insert a row under a fresh id. A missing name violates
      `NOT NULL`; an exhausted rowid space makes AUTOINCREMENT fail. */
  function HandleCreate(s: Store, io: Storage, name: Option<string>, price: int, servings: int): (r: Reply)
    ensures r.response.Ok? <==> io.Available? && name.Some? && s.nextId <= MaxRowId
    ensures !r.response.Ok? ==> r.store == s && r.response == ServerError(DbError)
    ensures r.response.Ok? ==>
      && r.response == Ok(Message(CreatedMessage))
      && r.store.nextId == s.nextId + 1
      && r.store.rows.Keys == s.rows.Keys + {s.nextId}
      && r.store.rows[s.nextId] == Row(name.value, price, servings)
      && (forall k :: k in s.rows && k != s.nextId ==> r.store.rows[k] == s.rows[k])
  {
    if io.Failing? || name.None? || s.nextId > MaxRowId then Reply(s, ServerError(DbError))
    else Reply(Store(s.rows[s.nextId := Row(name.value, price, servings)], s.nextId + 1), Ok(Message(CreatedMessage)))
  }

  /** PUT /recipes: replace the non-key columns of the row with the given id.
      No matching row means nothing changes, and then a missing name
      violates nothing either. */
  function HandleUpdate(s: Store, io: Storage, id: int, name: Option<string>, price: int, servings: int): (r: Reply)
    ensures r.response.Ok? <==> io.Available? && (id in s.rows ==> name.Some?)
    ensures !r.response.Ok? ==> r.store == s && r.response == ServerError(DbError)
    ensures r.response.Ok? ==>
      && r.response == Ok(Message(UpdatedMessage))
      && r.store.nextId == s.nextId
      && r.store.rows.Keys == s.rows.Keys
      && (id in s.rows ==> r.store.rows[id] == Row(name.value, price, servings))
      && (forall k :: k in s.rows && k != id ==> r.store.rows[k] == s.rows[k])
  {
    if io.Failing? then Reply(s, ServerError(DbError))
    else if id !in s.rows then Reply(s, Ok(Message(UpdatedMessage)))
    else if name.None? then Reply(s, ServerError(DbError))
    else Reply(Store(s.rows[id := Row(name.value, price, servings)], s.nextId), Ok(Message(UpdatedMessage)))
  }

  /** DELETE /recipes/:id: remove the row with that id, if any. */
  function HandleDelete(s: Store, io: Storage, id: int): (r: Reply)
    ensures io.Failing? ==> r.store == s && r.response == ServerError(DbError)
    ensures io.Available? ==>
      && r.response == Ok(Message(DeletedMessage))
      && r.store.nextId == s.nextId
      && r.store.rows.Keys == s.rows.Keys - {id}
      && (forall k :: k in r.store.rows ==> r.store.rows[k] == s.rows[k])
  {
    if io.Failing? then Reply(s, ServerError(DbError))
    else Reply(Store(s.rows - {id}, s.nextId), Ok(Message(DeletedMessage)))
  }

  /** The route table. Reads never change the table, a failing storage layer
      changes nothing and answers with the generic error, and the id counter
      never goes back. */
  function Serve(s: Store, req: Request, io: Storage): (r: Reply)
    ensures req.ListAll? || req.GetOne? ==> r.store == s
    ensures io.Failing? ==> r == Reply(s, ServerError(DbError))
    ensures r.store.nextId >= s.nextId
  {
    match req
    case ListAll => HandleList(s, io)
    case GetOne(id) => HandleGet(s, io, id)
    case Create(name, price, servings) => HandleCreate(s, io, name, price, servings)
    case Update(id, name, price, servings) => HandleUpdate(s, io, id, name, price, servings)
    case Remove(id) => HandleDelete(s, io, id)
  }
}

=== FILE: catalog_properties.dfy ===
/** Properties of the server's table that span several requests. */
module CatalogProperties {
  import opened Wrappers
  import opened Catalog

  /** Every route keeps the table invariant. */
  lemma ServePreservesValid(s: Store, req: Request, io: Storage)
    requires Valid(s)
    ensures Valid(Serve(s, req, io).store)
  {
    var r := Serve(s, req, io);
    match req
    case Create(name, price, servings) =>
      if r.response.Ok? {
        forall id | id in r.store.rows
          ensures 1 <= id < r.store.nextId
        {
          assert id in s.rows || id == s.nextId;
        }
      }
    case Update(id, name, price, servings) =>
      assert r.store.rows.Keys == s.rows.Keys || r.store == s;
    case Remove(id) =>
    case ListAll =>
    case GetOne(id) =>
  }

  /** A created row is read back with exactly the stored fields, under an id
      that no row held before the insert. */
  lemma CreateThenGet(s: Store, name: string, price: int, servings: int)
    requires Valid(s) && s.nextId <= MaxRowId
    ensures
      var c := HandleCreate(s, Available, Some(name), price, servings);
      && c.response == Ok(Message(CreatedMessage))
      && s.nextId !in s.rows
      && (forall id :: id in s.rows ==> id < s.nextId)
      && HandleGet(c.store, Available, s.nextId).response
         == Ok(MaybeRecord(Some(Record(s.nextId, name, price, servings))))
  {
  }

  /** A created row heads the listing, since its id is the largest. */
  lemma CreateThenListHead(s: Store, name: string, price: int, servings: int)
    requires Valid(s) && s.nextId <= MaxRowId
    ensures
      var c := HandleCreate(s, Available, Some(name), price, servings);
      var l := HandleList(c.store, Available);
      && l.response.Ok?
      && |l.response.body.items| > 0
      && l.response.body.items[0] == Record(s.nextId, name, price, servings)
  {
    var c := HandleCreate(s, Available, Some(name), price, servings);
    assert c.store.nextId - 1 == s.nextId;
  }

  /** Deleting twice is deleting once: the second request succeeds and
      changes nothing. */
  lemma DeleteIsIdempotent(s: Store, id: int)
    ensures
      var once := HandleDelete(s, Available, id);
      var twice := HandleDelete(once.store, Available, id);
      && once.response == Ok(Message(DeletedMessage))
      && twice == once
  {
    var once := HandleDelete(s, Available, id);
    assert once.store.rows - {id} == once.store.rows;
  }

  /** A request paired with what the storage layer does with it. */
  datatype Call = Call(req: Request, io: Storage)

  /** The table after serving a sequence of calls in order. */
  function Run(s: Store, calls: seq<Call>): (t: Store)
    ensures t.nextId >= s.nextId
    decreases |calls|
  {
    if calls == [] then s
    else Run(Serve(s, calls[0].req, calls[0].io).store, calls[1..])
  }

  lemma {:induction false} RunPreservesValid(s: Store, calls: seq<Call>)
    requires Valid(s)
    ensures Valid(Run(s, calls))
    decreases |calls|
  {
    if calls != [] {
      ServePreservesValid(s, calls[0].req, calls[0].io);
      RunPreservesValid(Serve(s, calls[0].req, calls[0].io).store, calls[1..]);
    }
  }

  /** The ids handed out by the successful creates among the calls, in order. */
  function CreatedIds(s: Store, calls: seq<Call>): (ids: seq<int>)
    ensures forall i :: 0 <= i < |ids| ==> s.nextId <= ids[i] < Run(s, calls).nextId
    ensures forall i, j :: 0 <= i < j < |ids| ==> ids[i] < ids[j]
    decreases |calls|
  {
    if calls == [] then []
    else
      var r := Serve(s, calls[0].req, calls[0].io);
      var later := CreatedIds(r.store, calls[1..]);
      if calls[0].req.Create? && r.response.Ok? then [s.nextId] + later else later
  }

  /** AUTOINCREMENT never reuses an id: every id a create hands out is new,
      both against the rows present at the start (and so against every id
      deleted later) and against every other create in the sequence. */
  lemma IdsNeverReused(s: Store, calls: seq<Call>)
    requires Valid(s)
    ensures
      var ids := CreatedIds(s, calls);
      && (forall i :: 0 <= i < |ids| ==> ids[i] !in s.rows)
      && (forall i, j :: 0 <= i < |ids| && 0 <= j < |ids| && i != j ==> ids[i] != ids[j])
  {
    var ids := CreatedIds(s, calls);
    forall i, j | 0 <= i < |ids| && 0 <= j < |ids| && i != j
      ensures ids[i] != ids[j]
    {
      if i < j { assert ids[i] < ids[j]; } else { assert ids[j] < ids[i]; }
    }
  }
}

=== FILE: feedback.dfy ===
/** The notices the client shows the user after each action. */
module Feedback {

  datatype Severity = Info | Error

  /** A message with its severity; errors are styled as danger alerts. */
  datatype Notice = Notice(text: string, severity: Severity)

  const FormResetMessage: string := "Formuläret rensades."
  const EditCancelledMessage: string := "Redigering avbröts."
  const FetchListFailedMessage: string := "Kunde inte hämta data från servern."
  const SelectedMessage: string := "Formuläret fylldes för redigering."
  const SelectFailedMessage: string := "Kunde inte hämta vald maträtt."
  const DeletedMessage: string := "Maträtten togs bort."
  const DeleteFailedMessage: string := "Kunde inte ta bort maträtten."
  const CheckFormMessage: string := "Kontrollera formuläret."
  const UpdatedMessage: string := "Maträtten uppdaterades."
  const CreatedMessage: string := "Maträtten skapades."
  const SaveFailedMessage: string := "Kunde inte spara."
}

=== FILE: form.dfy ===
/** The client's single edit form: a state machine that is either drafting a
    new recipe or editing an existing one, driven by user events and by the
    outcomes of the requests it sends. */
module FormController {
  import opened Wrappers
  import opened Pricing
  import opened Feedback
  import Catalog

  /** No `editingId` (a new draft), or the id of the record being edited. */
  datatype Mode = Drafting | Editing(id: int)

  /** The form: its mode, the chosen name and entered quantity, the two
      read-only fields derived from them, and whether the "cancel edit"
      button is visible. */
  datatype Form = Form(mode: Mode, name: string, servings: int, price: Display, total: Display, cancelShown: bool)

  /** What handling one event does: the new form, the request sent (if any),
      the notice shown (if any), and whether the list is fetched again. */
  datatype Effect = Effect(form: Form, sent: Option<Catalog.Request>, notice: Option<Notice>, refresh: bool)

  /** The form's invariant: the cancel button is shown exactly in edit mode,
      and the derived fields match the current name and quantity. */
  predicate Consistent(f: Form)
  {
    && f.cancelShown == f.mode.Editing?
    && (f.price, f.total) == CalculatedFields(f.name, f.servings)
  }

  /** The form after a reset: drafting, all fields empty, cancel hidden. It is
      also the state on page load. */
  const Cleared: Form := Form(Drafting, "", 0, Blank, Blank, false)

  lemma ClearedIsConsistent()
    ensures Consistent(Cleared) && Cleared.mode == Drafting
  {
  }

  /** Recompute the unit-price and total fields from the name and quantity. */
  function Recalculate(f: Form): (g: Form)
    ensures g.mode == f.mode && g.name == f.name && g.servings == f.servings
    ensures g.cancelShown == f.cancelShown
    ensures (g.price, g.total) == CalculatedFields(f.name, f.servings)
    ensures g.cancelShown == g.mode.Editing? ==> Consistent(g)
  {
    var d := CalculatedFields(f.name, f.servings);
    f.(price := d.0, total := d.1)
  }

  /** The user picks a menu item. */
  function ChooseName(f: Form, name: string): (g: Form)
    ensures g.mode == f.mode && g.name == name && g.servings == f.servings
    ensures g.cancelShown == f.cancelShown
    ensures (g.price, g.total) == CalculatedFields(name, f.servings)
    ensures Consistent(f) ==> Consistent(g)
  {
    Recalculate(f.(name := name))
  }

  /** The user types a quantity (an empty field reads as 0). */
  function EnterServings(f: Form, servings: int): (g: Form)
    ensures g.mode == f.mode && g.name == f.name && g.servings == servings
    ensures g.cancelShown == f.cancelShown
    ensures (g.price, g.total) == CalculatedFields(f.name, servings)
    ensures Consistent(f) ==> Consistent(g)
  {
    Recalculate(f.(servings := servings))
  }

  /** The id a submit sends an update for: the editing id, unless it is the
      falsy 0. */
  function UpdateTarget(m: Mode): (t: Option<int>)
    ensures t.Some? <==> m.Editing? && m.id != 0
    ensures t.Some? ==> t.value == m.id
  {
    if m.Editing? && m.id != 0 then Some(m.id) else None
  }

  /** The local checks a submit makes before sending anything: a name, a
      nonzero quantity and a nonzero table price. The name check is subsumed
      by the price check: exactly a menu name with a nonzero quantity passes. */
  function Submittable(f: Form): (ok: bool)
    ensures ok <==> f.name in MenuPrices && f.servings != 0
  {
    f.name != "" && f.servings != 0 && PriceForMenu(f.name) != 0
  }

  /** The request a submit sends. The price is looked up from the name at this
      moment; the displayed price plays no part. */
  function SubmitRequest(f: Form): (req: Catalog.Request)
    ensures UpdateTarget(f.mode).Some? ==>
      req == Catalog.Update(f.mode.id, Some(f.name), PriceForMenu(f.name), f.servings)
    ensures UpdateTarget(f.mode).None? ==>
      req == Catalog.Create(Some(f.name), PriceForMenu(f.name), f.servings)
  {
    var price := PriceForMenu(f.name);
    match UpdateTarget(f.mode)
    case Some(id) => Catalog.Update(id, Some(f.name), price, f.servings)
    case None => Catalog.Create(Some(f.name), price, f.servings)
  }

  /** Submit the form: reject locally, or send a create or an update and, once
      it succeeds, return to an empty draft. */
  function Submit(f: Form, outcome: Outcome<()>): (e: Effect)
    ensures !Submittable(f) ==>
      e == Effect(f, None, Some(Notice(CheckFormMessage, Error)), false)
    ensures Submittable(f) ==> e.sent == Some(SubmitRequest(f))
    ensures Submittable(f) && outcome.Succeeded? ==>
      && e.form == Cleared
      && e.refresh
      && e.notice == Some(Notice(if UpdateTarget(f.mode).Some? then UpdatedMessage else CreatedMessage, Info))
    ensures Submittable(f) && outcome.Failed? ==>
      e.form == f && !e.refresh && e.notice == Some(Notice(SaveFailedMessage, Error))
  {
    if !Submittable(f) then Effect(f, None, Some(Notice(CheckFormMessage, Error)), false)
    else
      var req := SubmitRequest(f);
      match outcome
      case Succeeded(_) =>
        var message := if UpdateTarget(f.mode).Some? then UpdatedMessage else CreatedMessage;
        Effect(Cleared, Some(req), Some(Notice(message, Info)), true)
      case Failed => Effect(f, Some(req), Some(Notice(SaveFailedMessage, Error)), false)
  }

  /** Load a record into the form for editing. A `null` body fails like a
      network error: reading its id throws before any field is written. */
  function SelectRecipe(f: Form, id: int, outcome: Outcome<Option<Catalog.Record>>): (e: Effect)
    ensures e.sent == Some(Catalog.GetOne(id)) && !e.refresh
    ensures outcome.Succeeded? && outcome.body.Some? ==>
      var item := outcome.body.value;
      && e.form.mode == Editing(item.id)
      && e.form.name == item.name
      && e.form.servings == item.servings
      && e.form.cancelShown
      && Consistent(e.form)
      && e.notice == Some(Notice(SelectedMessage, Info))
    ensures !(outcome.Succeeded? && outcome.body.Some?) ==>
      e.form == f && e.notice == Some(Notice(SelectFailedMessage, Error))
  {
    match outcome
    case Succeeded(Some(item)) =>
      var tablePrice := PriceForMenu(item.name);
      var seeded := f.(mode := Editing(item.id), name := item.name,
                       price := Shown(if tablePrice != 0 then tablePrice else item.price),
                       servings := item.servings);
      var g := Recalculate(seeded).(cancelShown := true);
      Effect(g, Some(Catalog.GetOne(id)), Some(Notice(SelectedMessage, Info)), false)
    case _ => Effect(f, Some(Catalog.GetOne(id)), Some(Notice(SelectFailedMessage, Error)), false)
  }

  /** Delete a record. The form is cleared only when it was editing that very
      record; a failure changes nothing. */
  function DeleteRecipe(f: Form, id: int, outcome: Outcome<()>): (e: Effect)
    ensures e.sent == Some(Catalog.Remove(id))
    ensures outcome.Succeeded? ==>
      && e.refresh
      && e.notice == Some(Notice(DeletedMessage, Info))
      && (f.mode == Editing(id) ==> e.form == Cleared)
      && (f.mode != Editing(id) ==> e.form == f)
    ensures outcome.Failed? ==>
      e.form == f && !e.refresh && e.notice == Some(Notice(DeleteFailedMessage, Error))
  {
    match outcome
    case Succeeded(_) =>
      var g := if f.mode == Editing(id) then Cleared else f;
      Effect(g, Some(Catalog.Remove(id)), Some(Notice(DeletedMessage, Info)), true)
    case Failed => Effect(f, Some(Catalog.Remove(id)), Some(Notice(DeleteFailedMessage, Error)), false)
  }

  /** Everything that can happen to the form. */
  datatype Event =
    | NameChosen(name: string)
    | ServingsEntered(servings: int)
    | ResetClicked
    | CancelClicked
    | Selected(id: int, fetched: Outcome<Option<Catalog.Record>>)
    | DeleteClicked(id: int, deleted: Outcome<()>)
    | Submitted(saved: Outcome<()>)

  /** Handle one event. Choosing a name or typing a quantity recalculates the
      form, reset and cancel return it to an empty draft with their notice,
      only the three events backed by a request send one, only a delete or a
      submit fetches the list again, and no event breaks the form's
      invariant. */
  function Step(f: Form, ev: Event): (e: Effect)
    ensures ev.NameChosen? ==> e == Effect(ChooseName(f, ev.name), None, None, false)
    ensures ev.ServingsEntered? ==> e == Effect(EnterServings(f, ev.servings), None, None, false)
    ensures ev.ResetClicked? ==> e == Effect(Cleared, None, Some(Notice(FormResetMessage, Info)), false)
    ensures ev.CancelClicked? ==> e == Effect(Cleared, None, Some(Notice(EditCancelledMessage, Info)), false)
    ensures e.sent.Some? <==> ev.Selected? || ev.DeleteClicked? || (ev.Submitted? && Submittable(f))
    ensures e.refresh ==> ev.DeleteClicked? || ev.Submitted?
    ensures Consistent(f) ==> Consistent(e.form)
  {
    match ev
    case NameChosen(name) => Effect(ChooseName(f, name), None, None, false)
    case ServingsEntered(n) => Effect(EnterServings(f, n), None, None, false)
    case ResetClicked => Effect(Cleared, None, Some(Notice(FormResetMessage, Info)), false)
    case CancelClicked => Effect(Cleared, None, Some(Notice(EditCancelledMessage, Info)), false)
    case Selected(id, fetched) => SelectRecipe(f, id, fetched)
    case DeleteClicked(id, deleted) => DeleteRecipe(f, id, deleted)
    case Submitted(saved) => Submit(f, saved)
  }

  /** The form after a sequence of events. */
  function Run(f: Form, events: seq<Event>): (g: Form)
    decreases |events|
  {
    if events == [] then f else Run(Step(f, events[0]).form, events[1..])
  }

  /** Every event keeps the form consistent. */
  lemma StepPreservesConsistent(f: Form, ev: Event)
    requires Consistent(f)
    ensures Consistent(Step(f, ev).form)
  {
  }

  /** From page load on, the cancel button is visible exactly in edit mode and
      the derived fields never go stale. */
  lemma {:induction false} RunPreservesConsistent(f: Form, events: seq<Event>)
    requires Consistent(f)
    ensures Consistent(Run(f, events))
    decreases |events|
  {
    if events != [] {
      StepPreservesConsistent(f, events[0]);
      RunPreservesConsistent(Step(f, events[0]).form, events[1..]);
    }
  }

  /** Every failed request leaves the form exactly as it was. */
  lemma FailureLeavesFormUnchanged(f: Form, id: int)
    ensures SelectRecipe(f, id, Failed).form == f
    ensures SelectRecipe(f, id, Succeeded(None)).form == f
    ensures DeleteRecipe(f, id, Failed).form == f
    ensures Submit(f, Failed).form == f
  {
  }

  /** The stored price of a selected record never remains shown: the
      unit-price field is first written with the menu price, or the stored
      price for an off-menu name, and then recomputed from the menu table
      alone, so a record whose name is not on the menu shows a blank price. */
  lemma SelectShowsTablePrice(f: Form, id: int, item: Catalog.Record)
    ensures
      var g := SelectRecipe(f, id, Succeeded(Some(item))).form;
      && (item.name in MenuPrices ==> g.price == Shown(MenuPrices[item.name]))
      && (item.name !in MenuPrices ==> g.price == Blank)
  {
  }
}

=== FILE: html.dfy ===
/** The client's HTML escaper, which protects the rendered list from markup in
    record names. */
module Html {

  /** The entities the escaper writes. */
  const AmpEntity: string := "&amp;"
  const LtEntity: string := "&lt;"
  const GtEntity: string := "&gt;"
  const QuotEntity: string := "&quot;"
  const AposEntity: string := "&#039;"

  /** Replace every occurrence of the character `c` in `s` by `rep`, as a
      string `replaceAll` with a one-character pattern does. */
  function ReplaceAll(s: string, c: char, rep: string): (r: string)
    ensures c !in rep ==> c !in r
  {
    if s == [] then []
    else (if s[0] == c then rep else [s[0]]) + ReplaceAll(s[1..], c, rep)
  }

  /** The five `replaceAll` passes of the escaper, ampersand first, as the
      client writes them. `EscapeHtmlAppend`, `EscapeHtmlChar` and
      `EscapeHtmlIsPerCharacter` are about this chain; `EscapeHtml` carries
      the resulting contract. */
  function FivePasses(s: string): (r: string)
  {
    var amp := ReplaceAll(s, '&', AmpEntity);
    var lt := ReplaceAll(amp, '<', LtEntity);
    var gt := ReplaceAll(lt, '>', GtEntity);
    var quot := ReplaceAll(gt, '"', QuotEntity);
    ReplaceAll(quot, '\'', AposEntity)
  }

  /** The five markup-significant characters. */
  predicate IsSpecial(c: char)
  {
    c == '&' || c == '<' || c == '>' || c == '"' || c == '\''
  }

  /** The text each character is written as: its entity if it is special,
      otherwise the character itself. */
  function EscapeChar(c: char): (e: string)
    ensures e == [c] <==> !IsSpecial(c)
    ensures IsSpecial(c) ==> |e| >= 4 && e[0] == '&' && e[|e| - 1] == ';'
  {
    match c
    case '&' => AmpEntity
    case '<' => LtEntity
    case '>' => GtEntity
    case '"' => QuotEntity
    case '\'' => AposEntity
    case _ => [c]
  }

  /** Reference definition: escape each character on its own. */
  function EscapeEach(s: string): (r: string)
  {
    if s == [] then [] else EscapeChar(s[0]) + EscapeEach(s[1..])
  }

  /** A string in which no character can open or close a tag or end an
      attribute value. */
  predicate Inert(s: string)
  {
    forall i :: 0 <= i < |s| ==> s[i] != '<' && s[i] != '>' && s[i] != '"' && s[i] != '\''
  }

  lemma {:induction false} ReplaceAllAppend(a: string, b: string, c: char, rep: string)
    ensures ReplaceAll(a + b, c, rep) == ReplaceAll(a, c, rep) + ReplaceAll(b, c, rep)
    decreases |a|
  {
    if a == [] {
      assert a + b == b;
    } else {
      assert (a + b)[0] == a[0];
      assert (a + b)[1..] == a[1..] + b;
      ReplaceAllAppend(a[1..], b, c, rep);
    }
  }

  lemma ReplaceAllSingle(x: char, c: char, rep: string)
    ensures ReplaceAll([x], c, rep) == if x == c then rep else [x]
  {
    assert [x][1..] == [];
  }

  /** A pass whose character does not occur leaves the text unchanged. */
  lemma {:induction false} ReplaceAllAbsent(s: string, c: char, rep: string)
    requires c !in s
    ensures ReplaceAll(s, c, rep) == s
    decreases |s|
  {
    if s != [] {
      ReplaceAllAbsent(s[1..], c, rep);
      assert s == [s[0]] + s[1..];
    }
  }

  /** Escaping distributes over concatenation. */
  lemma EscapeHtmlAppend(a: string, b: string)
    ensures FivePasses(a + b) == FivePasses(a) + FivePasses(b)
  {
    ReplaceAllAppend(a, b, '&', AmpEntity);
    var ampA, ampB := ReplaceAll(a, '&', AmpEntity), ReplaceAll(b, '&', AmpEntity);
    ReplaceAllAppend(ampA, ampB, '<', LtEntity);
    var ltA, ltB := ReplaceAll(ampA, '<', LtEntity), ReplaceAll(ampB, '<', LtEntity);
    ReplaceAllAppend(ltA, ltB, '>', GtEntity);
    var gtA, gtB := ReplaceAll(ltA, '>', GtEntity), ReplaceAll(ltB, '>', GtEntity);
    ReplaceAllAppend(gtA, gtB, '"', QuotEntity);
    var qA, qB := ReplaceAll(gtA, '"', QuotEntity), ReplaceAll(gtB, '"', QuotEntity);
    ReplaceAllAppend(qA, qB, '\'', AposEntity);
  }

  /** The passes after the ampersand pass leave inert text alone. */
  lemma LaterPassesKeepInert(e: string)
    requires Inert(e)
    ensures ReplaceAll(ReplaceAll(ReplaceAll(ReplaceAll(e, '<', LtEntity), '>', GtEntity), '"', QuotEntity), '\'', AposEntity) == e
  {
    assert '<' !in e && '>' !in e && '"' !in e && '\'' !in e;
    ReplaceAllAbsent(e, '<', LtEntity);
    ReplaceAllAbsent(e, '>', GtEntity);
    ReplaceAllAbsent(e, '"', QuotEntity);
    ReplaceAllAbsent(e, '\'', AposEntity);
  }

  lemma EscapeHtmlAmp()
    ensures FivePasses("&") == AmpEntity
  {
    var amp := ReplaceAll("&", '&', AmpEntity);
    assert amp == AmpEntity by { ReplaceAllSingle('&', '&', AmpEntity); }
    assert Inert(AmpEntity);
    LaterPassesKeepInert(amp);
  }

  lemma EscapeHtmlLt()
    ensures FivePasses("<") == LtEntity
  {
    var amp := ReplaceAll("<", '&', AmpEntity);
    assert amp == "<" by { ReplaceAllSingle('<', '&', AmpEntity); }
    var lt := ReplaceAll(amp, '<', LtEntity);
    assert lt == LtEntity by { ReplaceAllSingle('<', '<', LtEntity); }
    var gt := ReplaceAll(lt, '>', GtEntity);
    assert gt == LtEntity by { ReplaceAllAbsent(LtEntity, '>', GtEntity); }
    var quot := ReplaceAll(gt, '"', QuotEntity);
    assert quot == LtEntity by { ReplaceAllAbsent(LtEntity, '"', QuotEntity); }
    assert ReplaceAll(quot, '\'', AposEntity) == LtEntity by { ReplaceAllAbsent(LtEntity, '\'', AposEntity); }
  }

  lemma EscapeHtmlGt()
    ensures FivePasses(">") == GtEntity
  {
    var amp := ReplaceAll(">", '&', AmpEntity);
    assert amp == ">" by { ReplaceAllSingle('>', '&', AmpEntity); }
    var lt := ReplaceAll(amp, '<', LtEntity);
    assert lt == ">" by { ReplaceAllSingle('>', '<', LtEntity); }
    var gt := ReplaceAll(lt, '>', GtEntity);
    assert gt == GtEntity by { ReplaceAllSingle('>', '>', GtEntity); }
    var quot := ReplaceAll(gt, '"', QuotEntity);
    assert quot == GtEntity by { ReplaceAllAbsent(GtEntity, '"', QuotEntity); }
    assert ReplaceAll(quot, '\'', AposEntity) == GtEntity by { ReplaceAllAbsent(GtEntity, '\'', AposEntity); }
  }

  lemma EscapeHtmlQuot()
    ensures FivePasses("\"") == QuotEntity
  {
    var amp := ReplaceAll("\"", '&', AmpEntity);
    assert amp == "\"" by { ReplaceAllSingle('"', '&', AmpEntity); }
    var lt := ReplaceAll(amp, '<', LtEntity);
    assert lt == "\"" by { ReplaceAllSingle('"', '<', LtEntity); }
    var gt := ReplaceAll(lt, '>', GtEntity);
    assert gt == "\"" by { ReplaceAllSingle('"', '>', GtEntity); }
    var quot := ReplaceAll(gt, '"', QuotEntity);
    assert quot == QuotEntity by { ReplaceAllSingle('"', '"', QuotEntity); }
    assert ReplaceAll(quot, '\'', AposEntity) == QuotEntity by { ReplaceAllAbsent(QuotEntity, '\'', AposEntity); }
  }

  lemma EscapeHtmlApos()
    ensures FivePasses("'") == AposEntity
  {
    var amp := ReplaceAll("'", '&', AmpEntity);
    assert amp == "'" by { ReplaceAllSingle('\'', '&', AmpEntity); }
    var lt := ReplaceAll(amp, '<', LtEntity);
    assert lt == "'" by { ReplaceAllSingle('\'', '<', LtEntity); }
    var gt := ReplaceAll(lt, '>', GtEntity);
    assert gt == "'" by { ReplaceAllSingle('\'', '>', GtEntity); }
    var quot := ReplaceAll(gt, '"', QuotEntity);
    assert quot == "'" by { ReplaceAllSingle('\'', '"', QuotEntity); }
    assert ReplaceAll(quot, '\'', AposEntity) == AposEntity by { ReplaceAllSingle('\'', '\'', AposEntity); }
  }

  lemma EscapeHtmlOther(c: char)
    requires !IsSpecial(c)
    ensures FivePasses([c]) == [c]
  {
    var amp := ReplaceAll([c], '&', AmpEntity);
    assert amp == [c] by { ReplaceAllSingle(c, '&', AmpEntity); }
    var lt := ReplaceAll(amp, '<', LtEntity);
    assert lt == [c] by { ReplaceAllSingle(c, '<', LtEntity); }
    var gt := ReplaceAll(lt, '>', GtEntity);
    assert gt == [c] by { ReplaceAllSingle(c, '>', GtEntity); }
    var quot := ReplaceAll(gt, '"', QuotEntity);
    assert quot == [c] by { ReplaceAllSingle(c, '"', QuotEntity); }
    assert ReplaceAll(quot, '\'', AposEntity) == [c] by { ReplaceAllSingle(c, '\'', AposEntity); }
  }

  /** On a single character the five passes produce exactly its entity.
      Because the ampersand pass runs first, the ampersands that the later
      passes introduce are never escaped a second time. */
  lemma EscapeHtmlChar(c: char)
    ensures FivePasses([c]) == EscapeChar(c)
  {
    match c
    case '&' => EscapeHtmlAmp();
    case '<' => EscapeHtmlLt();
    case '>' => EscapeHtmlGt();
    case '"' => EscapeHtmlQuot();
    case '\'' => EscapeHtmlApos();
    case _ => EscapeHtmlOther(c);
  }

  /** The five passes agree with escaping each character on its own. */
  lemma {:induction false} EscapeHtmlIsPerCharacter(s: string)
    ensures FivePasses(s) == EscapeEach(s)
    decreases |s|
  {
    if s != [] {
      assert s == [s[0]] + s[1..];
      EscapeHtmlAppend([s[0]], s[1..]);
      EscapeHtmlChar(s[0]);
      EscapeHtmlIsPerCharacter(s[1..]);
    }
  }

  lemma {:induction false} EscapeEachIsInert(s: string)
    ensures Inert(EscapeEach(s))
    decreases |s|
  {
    if s != [] {
      EscapeEachIsInert(s[1..]);
      var e := EscapeChar(s[0]);
      assert Inert(e);
      var t := EscapeEach(s[1..]);
      assert EscapeEach(s) == e + t;
      forall i | 0 <= i < |e + t|
        ensures (e + t)[i] != '<' && (e + t)[i] != '>' && (e + t)[i] != '"' && (e + t)[i] != '\''
      {
        if i >= |e| {
          assert (e + t)[i] == t[i - |e|];
        }
      }
    }
  }

  lemma {:induction false} EscapeEachPlain(s: string)
    requires forall i :: 0 <= i < |s| ==> !IsSpecial(s[i])
    ensures EscapeEach(s) == s
    decreases |s|
  {
    if s != [] {
      EscapeEachPlain(s[1..]);
      assert s == [s[0]] + s[1..];
    }
  }

  /** Text without any of the five special characters is copied unchanged. */
  lemma EscapeHtmlKeepsPlainText(s: string)
    requires forall i :: 0 <= i < |s| ==> !IsSpecial(s[i])
    ensures EscapeHtml(s) == s
  {
    EscapeEachPlain(s);
  }

  /** Does `s` start with `p`? */
  predicate StartsWith(s: string, p: string)
  {
    |p| <= |s| && s[..|p|] == p
  }

  /** Decoding of the five entities the escaper writes, as an HTML parser
      reads them back from text content; every other character stands for
      itself. */
  function Unescape(s: string): (r: string)
    decreases |s|
  {
    if s == [] then []
    else if StartsWith(s, AmpEntity) then "&" + Unescape(s[|AmpEntity|..])
    else if StartsWith(s, LtEntity) then "<" + Unescape(s[|LtEntity|..])
    else if StartsWith(s, GtEntity) then ">" + Unescape(s[|GtEntity|..])
    else if StartsWith(s, QuotEntity) then "\"" + Unescape(s[|QuotEntity|..])
    else if StartsWith(s, AposEntity) then "'" + Unescape(s[|AposEntity|..])
    else [s[0]] + Unescape(s[1..])
  }

  lemma UnescapeChar(c: char, t: string)
    ensures Unescape(EscapeChar(c) + t) == [c] + Unescape(t)
  {
    var e := EscapeChar(c);
    var s := e + t;
    assert s[..|e|] == e;
    assert s[|e|..] == t;
    assert s[0] == e[0];
    assert s != [];
    if c == '&' {
      assert StartsWith(s, AmpEntity);
    } else if c == '<' {
      assert s[1] == 'l';
      assert !StartsWith(s, AmpEntity);
    } else if c == '>' {
      assert s[1] == 'g';
      assert !StartsWith(s, AmpEntity) && !StartsWith(s, LtEntity);
    } else if c == '"' {
      assert s[1] == 'q';
      assert !StartsWith(s, AmpEntity) && !StartsWith(s, LtEntity) && !StartsWith(s, GtEntity);
    } else if c == '\'' {
      assert s[1] == '#';
      assert !StartsWith(s, AmpEntity) && !StartsWith(s, LtEntity) && !StartsWith(s, GtEntity);
      assert !StartsWith(s, QuotEntity);
    } else {
      assert s[0] == c;
      assert !StartsWith(s, AmpEntity) && !StartsWith(s, LtEntity) && !StartsWith(s, GtEntity);
      assert !StartsWith(s, QuotEntity) && !StartsWith(s, AposEntity);
      assert s[1..] == t;
    }
  }

  /** Reading escaped text back yields the original string: escaping loses
      nothing. */
  lemma {:induction false} UnescapeEscapeEach(s: string)
    ensures Unescape(EscapeEach(s)) == s
    decreases |s|
  {
    if s != [] {
      UnescapeChar(s[0], EscapeEach(s[1..]));
      UnescapeEscapeEach(s[1..]);
      assert s == [s[0]] + s[1..];
    }
  }

  /** The escaper: its five passes write each special character as its
      entity and nothing else, so the result holds no raw `<`, `>`, `"` or
      `'`, and a parser reading it back recovers the name exactly. */
  function EscapeHtml(s: string): (r: string)
    ensures r == EscapeEach(s)
    ensures Inert(r)
    ensures Unescape(r) == s
  {
    EscapeHtmlIsPerCharacter(s);
    EscapeEachIsInert(s);
    UnescapeEscapeEach(s);
    FivePasses(s)
  }
}

=== FILE: listview.dfy ===
/** The client's list of recipe cards, rebuilt from each fetched snapshot. */
module ListView {
  import opened Wrappers
  import opened Pricing
  import opened Feedback
  import Html
  import Catalog

  /** What one card shows: the escaped name, the unit price, the quantity,
      the derived total and the tier that colours the card. The id is what
      the card's edit and delete actions pass on. */
  datatype Card = Card(id: int, title: string, price: int, servings: int, total: int, tier: Tier)

  /** The list area: the empty-state message, or a grid of cards. */
  datatype View = NoItems | Grid(cards: seq<Card>)

  /** The items of a fetched body; anything but an array counts as none. */
  function ItemsOf(body: Catalog.Json): (items: seq<Catalog.Record>)
    ensures body.RecordList? ==> items == body.items
    ensures !body.RecordList? ==> items == []
  {
    if body.RecordList? then body.items else []
  }

  /** The card for one record. Its title reads back as the stored name and
      cannot inject markup. */
  function CardOf(r: Catalog.Record): (c: Card)
    ensures c.id == r.id && c.price == r.price && c.servings == r.servings
    ensures c.total == r.price * r.servings
    ensures c.tier == TierFromTotal(r.price * r.servings)
    ensures Html.Inert(c.title) && Html.Unescape(c.title) == r.name
  {
    var total := r.price * r.servings;
    Card(r.id, Html.EscapeHtml(r.name), r.price, r.servings, total, TierFromTotal(total))
  }

  /** Render a fetched body: the empty-state message exactly when there are
      no items, otherwise one card per item in the order received. */
  function RenderList(body: Catalog.Json): (v: View)
    ensures v.NoItems? <==> ItemsOf(body) == []
    ensures v.Grid? ==> |v.cards| == |ItemsOf(body)|
    ensures v.Grid? ==> forall i :: 0 <= i < |v.cards| ==> v.cards[i] == CardOf(ItemsOf(body)[i])
  {
    var items := ItemsOf(body);
    if |items| == 0 then NoItems
    else Grid(seq(|items|, i requires 0 <= i < |items| => CardOf(items[i])))
  }

  /** Fetch the list and render it; on failure the old view stays and an
      error notice is shown. */
  function FetchAndRender(v: View, outcome: Outcome<Catalog.Json>): (r: (View, Option<Notice>))
    ensures outcome.Succeeded? ==> r == (RenderList(outcome.body), None)
    ensures outcome.Failed? ==> r == (v, Some(Notice(FetchListFailedMessage, Error)))
  {
    match outcome
    case Succeeded(body) => (RenderList(body), None)
    case Failed => (v, Some(Notice(FetchListFailedMessage, Error)))
  }

  /** A successful fetch replaces the whole list: what is shown afterwards
      depends only on the snapshot, never on the view it replaced. A failed
      fetch keeps the view, so failing twice is the same as failing once. */
  lemma FetchAndRenderReplacesView(v: View, w: View, outcome: Outcome<Catalog.Json>)
    ensures outcome.Succeeded? ==> FetchAndRender(v, outcome) == FetchAndRender(w, outcome)
    ensures outcome.Failed? ==>
      FetchAndRender(FetchAndRender(v, outcome).0, outcome) == FetchAndRender(v, outcome)
  {
  }
}

=== FILE: pricing.dfy ===
/** The price model of the client: the menu price table, the total shown in
    the form, and the price tier used to colour the list cards. */
module Pricing {

  /** The fixed menu: every name offered by the form's select box and its
      unit price in whole kronor. */
  const MenuPrices: map<string, int> := map[
    "Spaghetti bolognese" := 125,
    "Pasta carbonara" := 129,
    "Kycklinggryta" := 119,
    "Köttbullar med potatis" := 115,
    "Lasagne" := 125,
    "Hamburgare" := 135,
    "Kebabtallrik" := 129,
    "Pizza Margherita" := 115,
    "Sushi" := 149,
    "Tacos" := 119,
    "Pad thai" := 139,
    "Ramen" := 145,
    "Fried rice" := 119,
    "Fish & chips" := 139,
    "Caesarsallad" := 115,
    "Grillad lax" := 159,
    "Tomatsoppa" := 89,
    "Falafel" := 109,
    "Vegetarisk chili" := 109,
    "Pannkakor" := 95
  ]

  /** Every price in the menu table is a positive amount. */
  lemma MenuPricesArePositive()
    ensures forall n :: n in MenuPrices ==> MenuPrices[n] > 0
  {
  }

  /** Unit price of a menu item; 0 signals a name that is not on the menu. */
  function PriceForMenu(name: string): (p: int)
    ensures name in MenuPrices ==> p == MenuPrices[name] && p > 0
    ensures name !in MenuPrices ==> p == 0
    ensures p == 0 <==> name !in MenuPrices
  {
    if name in MenuPrices then MenuPrices[name] else 0
  }

  /** The empty selection is not a menu item, so it has no price. */
  lemma EmptyNameHasNoPrice()
    ensures PriceForMenu("") == 0
  {
  }

  /** The content of a read-only number field of the form: empty, or a number. */
  datatype Display = Blank | Shown(amount: int)

  /** What the form shows in its unit-price and total fields for a chosen
      name and an entered quantity. A zero unit price or a zero quantity
      leaves the respective field blank. */
  function CalculatedFields(name: string, servings: int): (d: (Display, Display))
    ensures d.0 == Blank <==> name !in MenuPrices
    ensures d.0.Shown? ==> d.0.amount == MenuPrices[name] && d.0.amount > 0
    ensures d.1.Shown? <==> name in MenuPrices && servings != 0
    ensures d.1.Shown? ==> d.1.amount == PriceForMenu(name) * servings && d.1.amount != 0
  {
    var price := PriceForMenu(name);
    var total := price * servings;
    (if price != 0 then Shown(price) else Blank,
     if price != 0 && servings != 0 then Shown(total) else Blank)
  }

  /** The colour band of a total price. */
  datatype Tier = Unknown | Ok | Cheap | Expensive

  /** Classify a total price into its band. */
  function TierFromTotal(total: int): (t: Tier)
    ensures t == Unknown <==> total <= 0
    ensures t == Ok <==> 0 < total <= 500
    ensures t == Cheap <==> 500 < total <= 1500
    ensures t == Expensive <==> 1500 < total
  {
    if total <= 0 then Unknown
    else if total > 1500 then Expensive
    else if total <= 500 then Ok
    else Cheap
  }

  /** The bands in increasing order of total. */
  function Rank(t: Tier): (k: nat)
    ensures k <= 3
  {
    match t
    case Unknown => 0
    case Ok => 1
    case Cheap => 2
    case Expensive => 3
  }

  /** A larger total never falls into a lower band. */
  lemma TierIsMonotone(a: int, b: int)
    requires a <= b
    ensures Rank(TierFromTotal(a)) <= Rank(TierFromTotal(b))
  {
  }

  /** The band edges: each band is closed at its upper end. */
  lemma TierBoundaries()
    ensures TierFromTotal(-5) == Unknown && TierFromTotal(0) == Unknown
    ensures TierFromTotal(1) == Ok && TierFromTotal(500) == Ok
    ensures TierFromTotal(501) == Cheap && TierFromTotal(1500) == Cheap
    ensures TierFromTotal(1501) == Expensive
  {
  }
}

=== FILE: sync.dfy ===
/** The client against the server: how a response becomes the outcome the
    client sees, and what a user action leaves in the table and the form. */
module Sync {
  import opened Wrappers
  import opened Pricing
  import opened Feedback
  import Catalog
  import opened FormController
  import ListView
  import CatalogProperties

  /** A create, update or delete as the client sees it: an ok status is
      success whatever the body says; a 500 is a failure. */
  function Acknowledged(resp: Catalog.Response): (o: Outcome<()>)
    ensures o.Succeeded? <==> resp.Ok?
  {
    if resp.Ok? then Succeeded(()) else Failed
  }

  /** A single-record read as the client sees it: the record or `null`. */
  function FetchedRecord(resp: Catalog.Response): (o: Outcome<Option<Catalog.Record>>)
    ensures o.Succeeded? <==> resp.Ok? && resp.body.MaybeRecord?
    ensures o.Succeeded? ==> o.body == resp.body.item
  {
    if resp.Ok? && resp.body.MaybeRecord? then Succeeded(resp.body.item) else Failed
  }

  /** A list read as the client sees it: the parsed body. */
  function FetchedList(resp: Catalog.Response): (o: Outcome<Catalog.Json>)
    ensures o.Succeeded? <==> resp.Ok?
    ensures o.Succeeded? ==> o.body == resp.body
  {
    if resp.Ok? then Succeeded(resp.body) else Failed
  }

  /** Submitting a new draft stores it under a fresh id with the table price,
      and the form returns to an empty draft. */
  lemma SubmitDraftCreates(f: Form, s: Catalog.Store)
    requires Catalog.Valid(s) && s.nextId <= Catalog.MaxRowId
    requires f.mode == Drafting && Submittable(f)
    ensures
      var r := Catalog.Serve(s, SubmitRequest(f), Catalog.Available);
      var e := Submit(f, Acknowledged(r.response));
      && e.form == Cleared
      && s.nextId !in s.rows
      && Catalog.HandleGet(r.store, Catalog.Available, s.nextId).response
         == Catalog.Ok(Catalog.MaybeRecord(Some(Catalog.Record(s.nextId, f.name, PriceForMenu(f.name), f.servings))))
  {
  }

  /** Submitting an edit of a record that still exists replaces its fields
      and nothing else; the form returns to an empty draft. */
  lemma SubmitEditUpdates(f: Form, s: Catalog.Store, id: int)
    requires Catalog.Valid(s) && id in s.rows
    requires f.mode == Editing(id) && Submittable(f)
    ensures
      var r := Catalog.Serve(s, SubmitRequest(f), Catalog.Available);
      var e := Submit(f, Acknowledged(r.response));
      && e.form == Cleared
      && r.store.rows.Keys == s.rows.Keys
      && r.store.rows[id] == Catalog.Row(f.name, PriceForMenu(f.name), f.servings)
      && (forall k :: k in s.rows && k != id ==> r.store.rows[k] == s.rows[k])
  {
  }

  /** The binding to the edited record is not live: if the record was deleted
      meanwhile, the update matches nothing, the table is unchanged, and the
      client still reports success and clears the form. */
  lemma SubmitEditOfVanishedRecord(f: Form, s: Catalog.Store, id: int)
    requires id !in s.rows
    requires f.mode == Editing(id) && id != 0 && Submittable(f)
    ensures
      var r := Catalog.Serve(s, SubmitRequest(f), Catalog.Available);
      var e := Submit(f, Acknowledged(r.response));
      && r.store == s
      && e.form == Cleared
      && e.notice == Some(Notice(UpdatedMessage, Info))
  {
  }

  /** Selecting a stored record puts the form in edit mode on that id, seeded
      from the stored row; selecting an absent id changes nothing. */
  lemma SelectFromServer(f: Form, s: Catalog.Store, id: int)
    ensures
      var e := SelectRecipe(f, id, FetchedRecord(Catalog.HandleGet(s, Catalog.Available, id).response));
      && (id in s.rows ==>
            && e.form.mode == Editing(id)
            && e.form.name == s.rows[id].name
            && e.form.servings == s.rows[id].servings)
      && (id !in s.rows ==> e.form == f && e.notice == Some(Notice(SelectFailedMessage, Error)))
  {
  }

  /** Deleting the record being edited removes it from the table and drops
      the form back to drafting, without an explicit cancel. */
  lemma DeleteEditedRecord(f: Form, s: Catalog.Store, id: int)
    requires f.mode == Editing(id)
    ensures
      var r := Catalog.Serve(s, Catalog.Remove(id), Catalog.Available);
      var e := DeleteRecipe(f, id, Acknowledged(r.response));
      && id !in r.store.rows
      && e.form == Cleared
      && e.form.mode == Drafting
  {
  }

  /** A storage error anywhere leaves the table, the form and the rendered
      list as they were. */
  lemma StorageErrorChangesNothing(f: Form, v: ListView.View, s: Catalog.Store, id: int)
    ensures !Submittable(f) ==> Submit(f, Failed).sent == None && Submit(f, Failed).form == f
    ensures Submittable(f) ==>
      var r := Catalog.Serve(s, SubmitRequest(f), Catalog.Failing);
      && r.store == s
      && r.response == Catalog.ServerError(Catalog.DbError)
      && Submit(f, Acknowledged(r.response)).form == f
    ensures
      var r := Catalog.Serve(s, Catalog.Remove(id), Catalog.Failing);
      r.store == s && DeleteRecipe(f, id, Acknowledged(r.response)).form == f
    ensures
      var r := Catalog.Serve(s, Catalog.GetOne(id), Catalog.Failing);
      r.store == s && SelectRecipe(f, id, FetchedRecord(r.response)).form == f
    ensures
      var r := Catalog.Serve(s, Catalog.ListAll, Catalog.Failing);
      r.store == s && ListView.FetchAndRender(v, FetchedList(r.response)).0 == v
  {
  }

  /** Fill in a fresh draft as a user would. */
  function Fill(name: string, servings: int): (f: Form)
    ensures f.mode == Drafting && f.name == name && f.servings == servings && Consistent(f)
  {
    EnterServings(ChooseName(Cleared, name), servings)
  }

  /** Creating a draft and then refreshing the list shows the new record as
      the first card, with the total and tier derived from its fields. */
  lemma CreateThenRender(name: string, servings: int, s: Catalog.Store)
    requires Catalog.Valid(s) && s.nextId <= Catalog.MaxRowId
    requires PriceForMenu(name) != 0 && servings != 0
    ensures
      var f := Fill(name, servings);
      var r := Catalog.Serve(s, SubmitRequest(f), Catalog.Available);
      var l := Catalog.Serve(r.store, Catalog.ListAll, Catalog.Available);
      var v := ListView.FetchAndRender(ListView.NoItems, FetchedList(l.response)).0;
      && Submittable(f)
      && SubmitRequest(f) == Catalog.Create(Some(name), PriceForMenu(name), servings)
      && v.Grid?
      && v.cards[0].id == s.nextId
      && v.cards[0].total == PriceForMenu(name) * servings
      && v.cards[0].tier == TierFromTotal(PriceForMenu(name) * servings)
  {
    var f := Fill(name, servings);
    var req := SubmitRequest(f);
    assert req == Catalog.Create(Some(name), PriceForMenu(name), servings);
    var r := Catalog.Serve(s, req, Catalog.Available);
    assert r == Catalog.HandleCreate(s, Catalog.Available, Some(name), PriceForMenu(name), servings);
    var l := Catalog.Serve(r.store, Catalog.ListAll, Catalog.Available);
    assert l == Catalog.HandleList(r.store, Catalog.Available);
    CatalogProperties.CreateThenListHead(s, name, PriceForMenu(name), servings);
    var items := l.response.body.items;
    var v := ListView.FetchAndRender(ListView.NoItems, FetchedList(l.response)).0;
    assert v == ListView.RenderList(l.response.body);
    assert ListView.ItemsOf(l.response.body) == items;
    assert v.cards[0] == ListView.CardOf(items[0]);
  }

  /** A first order of two Tacos: total 238, tier ok. */
  lemma TwoTacos(s: Catalog.Store)
    requires Catalog.Valid(s) && s.nextId <= Catalog.MaxRowId
    ensures
      var f := Fill("Tacos", 2);
      var r := Catalog.Serve(s, SubmitRequest(f), Catalog.Available);
      var l := Catalog.Serve(r.store, Catalog.ListAll, Catalog.Available);
      var v := ListView.FetchAndRender(ListView.NoItems, FetchedList(l.response)).0;
      && SubmitRequest(f) == Catalog.Create(Some("Tacos"), 119, 2)
      && v.Grid? && v.cards[0].total == 238 && v.cards[0].tier == Ok
  {
    var price := PriceForMenu("Tacos");
    assert price == 119 by { assert MenuPrices["Tacos"] == 119; }
    assert TierFromTotal(238) == Ok;
    CreateThenRender("Tacos", 2, s);
  }

  /** Ten portions of grilled salmon: total 1590, tier expensive. */
  lemma TenSalmon(s: Catalog.Store)
    requires Catalog.Valid(s) && s.nextId <= Catalog.MaxRowId
    ensures
      var f := Fill("Grillad lax", 10);
      var r := Catalog.Serve(s, SubmitRequest(f), Catalog.Available);
      var l := Catalog.Serve(r.store, Catalog.ListAll, Catalog.Available);
      var v := ListView.FetchAndRender(ListView.NoItems, FetchedList(l.response)).0;
      && SubmitRequest(f) == Catalog.Create(Some("Grillad lax"), 159, 10)
      && v.Grid? && v.cards[0].total == 1590 && v.cards[0].tier == Expensive
  {
    var price := PriceForMenu("Grillad lax");
    assert price == 159 by { assert MenuPrices["Grillad lax"] == 159; }
    assert TierFromTotal(1590) == Expensive;
    CreateThenRender("Grillad lax", 10, s);
  }

  /** Editing a Tacos order from two portions down to one sends the update
      with the table price, and the stored row then shows one portion. */
  lemma TacosDownToOne(s: Catalog.Store, id: int)
    requires Catalog.Valid(s) && id in s.rows && s.rows[id] == Catalog.Row("Tacos", 119, 2)
    ensures
      var selected := SelectRecipe(Cleared, id, FetchedRecord(Catalog.HandleGet(s, Catalog.Available, id).response)).form;
      var f := EnterServings(selected, 1);
      var r := Catalog.Serve(s, SubmitRequest(f), Catalog.Available);
      && SubmitRequest(f) == Catalog.Update(id, Some("Tacos"), 119, 1)
      && Catalog.HandleGet(r.store, Catalog.Available, id).response
         == Catalog.Ok(Catalog.MaybeRecord(Some(Catalog.Record(id, "Tacos", 119, 1))))
  {
    SelectFromServer(Cleared, s, id);
  }

  /** Submitting with no name chosen sends nothing and shows the validation
      notice. */
  lemma EmptyNameIsRejected(servings: int)
    ensures
      var e := Submit(Fill("", servings), Succeeded(()));
      e.sent == None && e.notice == Some(Notice(CheckFormMessage, Error)) && e.form == Fill("", servings)
  {
  }
}

=== FILE: wrappers.dfy ===
/** Small failure-carrying datatypes shared by the client and the server model. */
module Wrappers {

  /** A value that may be absent: JSON `null`, a missing body field, a row not found. */
  datatype Option<+T> = None | Some(value: T)

  /** How an asynchronous request issued by the client ended.
      `Succeeded(body)` is an HTTP response with an ok status whose JSON body
      parsed; `Failed` collapses every other ending (network error, non-ok
      status, unreadable body) into the single case the client handles. */
  datatype Outcome<+T> = Succeeded(body: T) | Failed
}
